=== FILE: README.md ===
# AR.Drone AT-command layer

This project models the command side of the `ardroneapi` Python package. A
`Drone` object keeps a sequence counter and, once connected, a UDP command
socket. Every control or config call, from `takeoff` to `get_config` and
`set_config`, builds one or more AT commands. An AT command is an ASCII frame
`AT*<method>=<seq>,<p1>,...,<pn>\r`, where `<seq>` is the next value of the
counter. A float parameter is written as the decimal text of the signed 32-bit
integer that has the same IEEE-754 binary32 bit pattern (`float2int`). The
call then writes the frames to the socket, either one frame per datagram
(`send`) or all frames joined into one datagram (`send_many`). When no socket
is open, `raw_send` raises `Exception("Not connected yet!")`.

How the model is laid out:

- A drone is the immutable record `Drone(sequence, connected)`.
- Each call is a pure function. It returns the next record together with
  either the datagrams written or the exception raised.
- A float is its 32-bit pattern, the newtype `Bits32`.
- A Python parameter is a tagged `Param`: int, float or str.
- Each string-building or parsing operation has a partner that its
  contract is proved against:
  - a frame reader (`ParseFrame`) that takes frames apart again;
  - the decimal reader (`ParseInt`);
  - the inverse conversion `int2float`;
  - a command table that lists, for each dispatcher action, the AT commands
    it encodes (`Session.Commands`) and whether it hands them to `send` or
    to `send_many` (`Session.SenderOf`).
- `connect`, `disconnect` and `raw_send` are related to one another: a
  close right after an open succeeds, and `raw_send` writes after `connect`
  and raises after `disconnect`.

Modules:

- `Results`: Option and Result types.
- `Decimal`: rendering and parsing decimal integers.
- `Text`: joining, splitting and concatenating strings.
- `WireNumeric`: `float2int` and `int2float`.
- `Params`: how each parameter is rendered.
- `DroneState`: the counter, the connection flag and `raw_send`.
- `Encoder`: `build_raw_command` and `build_raw_commands`.
- `Dispatcher`: `send`, `send_many` and the actions.
- `Session`: scripts of actions, checked against the command table.
- `AsWritten`: three calls modelled exactly as written, because as written
  they cannot run (see Findings).

Behaviour of the code that the model keeps:

- `build_raw_commands` always returns exactly one datagram holding every
  frame. The code has no 1024-byte splitting; it only leaves a TODO about it.
- No parameter type is rejected. Anything that is not a float goes through
  `str()`. The code is Python 2, and two encode errors remain. In
  `float2int`, `struct.pack("=f", f)` raises OverflowError for a finite
  float beyond the binary32 range. And `str()` of a `unicode` parameter with
  non-ASCII text raises UnicodeEncodeError, for instance the key of
  `set_config(u'caf\xe9', True)`. Both raise before the frame's number is
  drawn. The model has neither error (see Left out).
- A command with no parameters ends right after the sequence number,
  `AT*FTRIM=<n>\r`. No comma follows the number.
- The counter advances while the frame is being built, before `raw_send`
  checks the socket. A call on a disconnected drone therefore still uses up
  its numbers.
- `get_config` is two `send` calls, so it writes two datagrams. When
  disconnected, the first `send` raises before the second frame is built, so
  the call uses up only one number.
- `emergency` writes its three `REF` frames as one datagram.
- The counter belongs to the `Drone` object, not to a connection. Numbering
  continues across `disconnect` and `connect`, so "1..N" holds from a freshly
  built drone (`FreshSessionNumbersFromOne`).

## Model

| member | source | states |
|---|---|---|
| DroneState.Connect | ardroneapi/__init__.py:43-47 | opening the command socket makes the drone connected and leaves the counter unchanged |
| DroneState.Disconnect | ardroneapi/__init__.py:49-51 | closing succeeds exactly when a socket is open, leaves the drone disconnected with the same counter, and otherwise raises an AttributeError (the `close` lookup on `None`) |
| DroneState.Sequence | ardroneapi/__init__.py:90-92 | `sequence()` pre-increments: the number returned equals the new counter, one more than the old one |
| DroneState.IssueManyConsecutive | ardroneapi/__init__.py:90-92 | k successive `sequence()` calls return the next k numbers in order and leave the counter at the last of them |
| DroneState.FreshIssuesOneToN | ardroneapi/__init__.py:28-29 | from a new drone (counter 0), N calls return exactly 1..N, strictly increasing, so no number is repeated or skipped |
| DroneState.ConnectDisconnectRoundTrip | ardroneapi/__init__.py:43-51 | closing right after opening succeeds and leaves a disconnected drone with the same counter; opening again after a close restores the connected drone |
| DroneState.RawSendFollowsConnection | ardroneapi/__init__.py:94-102 | `raw_send` writes after a successful `connect`, and raises "Not connected yet!" after `disconnect` |
| DroneState.RawSend | ardroneapi/__init__.py:94-102 | `raw_send` writes exactly the given datagram when a socket is open, and raises "Not connected yet!" exactly when none is |
| Decimal.NatToString | ardroneapi/__init__.py:116 | the text of a sequence number is a non-empty string of digits with no leading zero |
| Decimal.IntToString | ardroneapi/__init__.py:113-115 | `str()` of an integer starts with '-' exactly when it is negative, and digits with no leading zero follow: the only text whose digits start with '0' is `0` itself |
| Decimal.DigitsValueOfNatToString | ardroneapi/__init__.py:116 | the digits of a sequence number's text are worth that number |
| Decimal.NatRoundTrip | ardroneapi/__init__.py:116 | the text of a sequence number reads back as the same number |
| Decimal.IntRoundTrip | ardroneapi/__init__.py:113-115 | the text of any integer parameter reads back as the same integer |
| Decimal.IntToStringInjective | ardroneapi/__init__.py:113-115 | two different integers never render to the same text |
| Text.SplitJoin | ardroneapi/__init__.py:116 | joining separator-free fields with ',' and splitting at ',' gives the same fields back |
| Text.ConcatAppend | ardroneapi/__init__.py:126 | `''.join` of two lists, one after the other, is the join of the first followed by the join of the second |
| WireNumeric.Float2Int | ardroneapi/__init__.py:347-355 | `float2int` gives a signed 32-bit integer, negative exactly when the sign bit is set, congruent to the pattern mod 2^32 |
| WireNumeric.Int2Float | ardroneapi/__init__.py:356-367 | `int2float` gives a pattern exactly for the signed 32-bit integers (otherwise `struct.pack` raises), congruent to the input mod 2^32 |
| WireNumeric.Int2FloatOfFloat2Int | ardroneapi/__init__.py:347-367 | converting a pattern to the wire integer and back restores the pattern exactly |
| WireNumeric.Float2IntOfInt2Float | ardroneapi/__init__.py:347-367 | converting a 32-bit integer to a pattern and back restores the integer |
| WireNumeric.Float2IntInjective | ardroneapi/__init__.py:347-355 | two different patterns never give the same wire integer |
| WireNumeric.MinusPointEightExample | ardroneapi/__init__.py:351-352 | the documented example: -0.8f (pattern 0xBF4CCCCD) becomes -1085485875, and `int2float` of that gives the same pattern |
| WireNumeric.IsZeroFloatExactlyZeros | ardroneapi/__init__.py:194 | `not bool(x)` holds for a float exactly when x is +0.0 or -0.0 |
| Params.EncodeParam | ardroneapi/__init__.py:111-115 | a float is rendered as the text of `float2int` of it and a str is passed through verbatim; a rendered number never contains ',', '\r' or '=' |
| Params.ParamReadsBack | ardroneapi/__init__.py:111-115 | an int parameter's text reads back as the int; a float's text reads back as an integer that `int2float` turns back into the same pattern |
| Params.EncodeAll | ardroneapi/__init__.py:110-115 | `params2` has one rendered text per parameter, in parameter order |
| Params.EncodeParamList | ardroneapi/__init__.py:110-115 | the `for param in params` loop builds exactly that list |
| Params.PositiveZeroRendersAsZero | ardroneapi/__init__.py:112-113 | the float 0.0 is sent as `0`, the same text as the int 0 |
| Params.HalfRendersAsBitPattern | ardroneapi/__init__.py:112-113 | the floats 0.5 and -0.5 are sent as `1056964608` and `-1090519040`, the integers of their patterns, not as their decimal values |
| Encoder.FrameLayout | ardroneapi/__init__.py:116-117 | a frame is `AT*`, the method, `=`, the number, one `,<text>` per parameter, then `\r`; with no parameters nothing follows the number |
| Encoder.JoinIsTail | ardroneapi/__init__.py:116 | joining the number and the parameter texts with ',' is the number followed by one `,<text>` per parameter |
| Encoder.BodyRoundTrip | ardroneapi/__init__.py:116 | reading `<method>=` followed by the comma-joined number and fields gives back the method, the number and the fields, when the method has no '=' and no field has a ',' |
| Encoder.FrameRoundTrip | ardroneapi/__init__.py:104-117 | if the method has no '=' and no str parameter has a ',', reading a frame back gives its method, its number and its parameter texts |
| Encoder.BuildRawCommand | ardroneapi/__init__.py:104-117 | `build_raw_command` uses exactly one number, the next one, and renders the command's frame under it |
| Encoder.BuildRawCommandReadsBack | ardroneapi/__init__.py:104-117 | the frame `build_raw_command` returns reads back as the command under the number it drew |
| Encoder.NumberedFrames | ardroneapi/__init__.py:123-125 | the i-th frame of a batch is the i-th command under the number start + i |
| Encoder.NumberedSnoc | ardroneapi/__init__.py:124-125 | one more loop iteration appends exactly the next command's frame under the next number |
| Encoder.NumberedAppend | ardroneapi/__init__.py:123-125 | numbering two command lists one after the other is the same as numbering their concatenation |
| Encoder.NumberedRoundTrip | ardroneapi/__init__.py:123-125 | every frame of a numbered batch reads back with its own number and its own command |
| Encoder.BuildEach | ardroneapi/__init__.py:123-125 | the list `r` holds the frames of the commands numbered consecutively in list order, and uses one number per command |
| Encoder.BuildRawCommands | ardroneapi/__init__.py:119-126 | `build_raw_commands` returns one datagram: all the frames, consecutively numbered, concatenated in order |
| Encoder.BuildRawCommandsLoop | ardroneapi/__init__.py:119-126 | the append loop followed by `''.join` gives the same single datagram and counter |
| Dispatcher.Send | ardroneapi/__init__.py:128-129 | `send` always uses one number; connected it writes that one frame as one datagram, otherwise it raises "Not connected yet!" |
| Dispatcher.SendAll | ardroneapi/__init__.py:132-133 | the `raw_send` loop writes every datagram when connected, and raises on the first one when not |
| Dispatcher.SendMany | ardroneapi/__init__.py:131-133 | `send_many` uses one number per command even when disconnected; connected it writes a single datagram of the numbered frames |
| Dispatcher.Takeoff | ardroneapi/__init__.py:139-145 | `takeoff` writes `AT*REF=<n>,512\r` using one number |
| Dispatcher.Land | ardroneapi/__init__.py:147-152 | `land` writes `AT*REF=<n>,0\r` using one number |
| Dispatcher.Emergency | ardroneapi/__init__.py:154-163 | `emergency` writes REF 0, REF 256, REF 0 under three consecutive numbers in one datagram, and uses three numbers even when disconnected |
| Dispatcher.EmergencyWire | ardroneapi/__init__.py:163 | on a connected drone the datagram of `emergency` is `AT*REF=<n>,0\r AT*REF=<n+1>,256\r AT*REF=<n+2>,0\r`, with no separator between the frames |
| Dispatcher.Recover | ardroneapi/__init__.py:165-172 | `recover` writes `AT*REF=<n>,0\r` using one number, exactly what `land` does from the same state |
| Dispatcher.Hover | ardroneapi/__init__.py:174-181 | `hover` writes COMWDG and then `PCMD` with 0,0,0,0,0, under two consecutive numbers in one datagram |
| Dispatcher.HoverWire | ardroneapi/__init__.py:178-181 | on a connected drone the datagram of `hover` is the COMWDG frame directly followed by the hover `PCMD` frame |
| Dispatcher.Move | ardroneapi/__init__.py:183-202 | `move` is exactly `hover` when all four inputs are ±0.0; otherwise it writes COMWDG and then `PCMD` with 1 and the four wire integers, in input order |
| Dispatcher.MoveWire | ardroneapi/__init__.py:198-202 | on a connected drone the moving datagram is the COMWDG frame directly followed by `PCMD` with 1 and the wire integers of roll, pitch, gaz and yaw |
| Dispatcher.FlatTrims | ardroneapi/__init__.py:204-217 | `flat_trims` writes `AT*FTRIM=<n>\r` with no parameter |
| Dispatcher.SelectVideoChannel | ardroneapi/__init__.py:219-234 | `select_video_channel` writes `ZAP` with the rendered mode |
| Dispatcher.EnableAutonomousFlight | ardroneapi/__init__.py:236-240 | `enable_autonomous_flight` writes `AT*AFLIGHT=<n>,1\r` |
| Dispatcher.DisableAutonomousFlight | ardroneapi/__init__.py:242-246 | `disable_autonomous_flight` writes `AT*AFLIGHT=<n>,0\r` |
| Dispatcher.AnimateLeds | ardroneapi/__init__.py:248-275 | `animate_leds` writes `LED` with the animation, the frequency as a float's wire integer, and the duration |
| Dispatcher.Animate | ardroneapi/__init__.py:277-293 | `animate` writes `ANIM` with the animation and the duration |
| Dispatcher.AnimateLedsDefaults | ardroneapi/__init__.py:248-275 | `animate_leds(animation)` with the defaults writes `AT*LED=<n>,<animation>,1056964608,2\r`: the default frequency 0.5 goes out as the integer of its pattern |
| Dispatcher.DoubleMissileExample | ardroneapi/__init__.py:18 | the class docstring's `d.animate_leds(13)` writes `AT*LED=<n>,13,1056964608,2\r` using one number |
| Dispatcher.AnimateDefaults | ardroneapi/__init__.py:277-293 | `animate(animation)` with the default duration writes `AT*ANIM=<n>,<animation>,1\r` |
| Dispatcher.ResetCommunicationsWatchdog | ardroneapi/__init__.py:295-296 | `reset_communications_watchdog` writes `AT*COMWDG=<n>\r` |
| Dispatcher.SetConfig | ardroneapi/__init__.py:305-317 | `set_config` writes `CONFIG` with the key in double quotes and `"TRUE"` or `"FALSE"` chosen by the value |
| Dispatcher.ActivateDetailedNavdata | ardroneapi/__init__.py:302-303 | `activate_detailed_navdata` sets `general:navdata_demo` to `"TRUE"` |
| Dispatcher.GetConfig | ardroneapi/__init__.py:336-345 | connected, `get_config` writes the CTRL 5 frame and then the CTRL 4 frame as two datagrams under two consecutive numbers; disconnected, it raises after using one number |
| Dispatcher.GetConfigWire | ardroneapi/__init__.py:341-345 | the two datagrams are `AT*CTRL=<n>,5\r` and `AT*CTRL=<n+1>,4\r` |
| Session.PerformMatchesTable | ardroneapi/__init__.py:128-345 | every dispatcher action writes exactly the datagrams its table entry gives: its commands numbered from the next counter value, one datagram per frame for the actions that call `send` (so two for `get_config`) and a single joined datagram for those that call `send_many`; it uses one number per command; disconnected, it raises after using the numbers of the frames it built |
| Session.ChainConnected | ardroneapi/__init__.py:90-92 | two calls in a row on a connected drone write the frames of both command lists numbered straight through, because the counter carries over |
| Session.RunConnected | ardroneapi/__init__.py:128-133 | on a connected drone, a script of actions never raises, and its datagrams are, end to end, the frames of all its commands numbered consecutively in call order |
| Session.RunDisconnected | ardroneapi/__init__.py:94-99 | on a disconnected drone, a script's first action raises "Not connected yet!" after using only the numbers it built |
| Session.FreshSessionNumbersFromOne | ardroneapi/__init__.py:28-29 | on a newly built and connected drone, every script succeeds and its i-th command goes out under number i + 1; when no command has a stray '=' or ',', each frame also reads back as its command |
| AsWritten.BuildRawCommandsAsWrittenRaises | ardroneapi/__init__.py:125 | as written, `build_raw_commands` raises AttributeError for every non-empty list, where the intended version returns the numbered frames |
| AsWritten.EmergencyAsWrittenSendsNothing | ardroneapi/__init__.py:163 | as written, `emergency` raises and writes nothing even when connected, and uses no number |
| AsWritten.HoverAsWrittenSendsNothing | ardroneapi/__init__.py:178-181 | as written, `hover` raises TypeError and writes nothing even when connected |
| AsWritten.MoveAsWrittenSendsNothing | ardroneapi/__init__.py:194 | as written, `move` raises TypeError for every input, where the intended version always writes two frames when connected |

## Left out

- Sockets, addresses, ports, `bind` and the `socket.connect` call: an open command socket is a boolean. Socket errors, such as a failed bind, are not modelled. In particular, a second `connect` on a connected drone always fails at `bind`, because the open socket still holds the local command port; the model's `Connect` keeps such a drone as it is, which is the state the code leaves, but drops the exception.
- `connect_nav` and `disconnect_nav`: these are the telemetry side, with a blocking receive loop and printing. `disconnect_nav` also calls the misspelt `clos`.
- `connect_and_listen_for_config`: opens a TCP connection, sends `USER anonymous`, then prints what it receives until the peer closes. This is blocking network I/O with console output only.
- Telemetry decoding: `ardroneapi/__init__.py` has no navdata decoder at all.
- The `print` calls in `raw_send`: they are console output only.
- Dispatcher.Move and Dispatcher.AnimateLeds: take their float inputs as binary32 patterns. Python's `float()` conversion of non-float inputs and the rounding of a double to single precision in `struct.pack("=f", ...)` are not modelled. For the same reason WireNumeric.Float2Int starts from the pattern and not from a Python double.
- WireNumeric.Float2Int: the OverflowError that `struct.pack("=f", f)` raises for a finite double beyond the binary32 range is not modelled, because no such double has a pattern. In the code, `move(1e39, 0, 0, 0)` has then drawn the COMWDG frame's number, raises while rendering the `PCMD` parameters before their `sequence()` call, and sends nothing even when connected. `animate_leds` with such a frequency raises before drawing any number.
- WireNumeric.Float2IntOfInt2Float: the double that `int2float` returns is not modelled; the lemma is about the binary32 pattern. Widening a signalling-NaN pattern to a double sets its quiet bit, so in the code `float2int(int2float(2139095041))` is 2143289345. Signalling-NaN patterns do not survive the round trip through a Python float.
- Dispatcher.SetConfig: takes the value as a bool. Python truthiness of arbitrary objects is not modelled.
- Params.EncodeParam: covers int, float and str parameters. `str()` of other Python types, such as bool or None, is not modelled. A str parameter stands for a Python 2 byte string, modelled as a sequence of characters, so `PStr` also admits characters that no byte string holds. `unicode` parameters, and the UnicodeEncodeError that `str()` raises for their non-ASCII text before the frame's number is drawn, are not modelled.
- Encoder.Command: `params=None` and any other falsy parameter value are modelled as the empty parameter list. The code treats them the same way.
- Encoder.FrameRoundTrip: holds only for commands whose method has no '=' and whose str parameters have no ','. The code does not escape such text, so those frames cannot be read back unambiguously.
- Splitting batches at 1024 bytes: the code does not do it, so nothing is modelled.
- Thread safety of the counter: the code has no locking, and the model is sequential.

## Findings

| source | as written | input that shows it | evidently intended | confidence | as-written member | corrected member |
|---|---|---|---|---|---|---|
| ardroneapi/__init__.py:125 | `build_raw_commands` calls `self.build_command(*command)`, which `Drone` does not define | `emergency()` on a connected drone: AttributeError before any frame is built or sent | call `self.build_raw_command(*command)`, numbering each command in turn | not executed | AsWritten.BuildRawCommandsAsWritten, AsWritten.BuildRawCommandsAsWrittenRaises, AsWritten.EmergencyAsWrittenSendsNothing | Encoder.BuildRawCommands |
| ardroneapi/__init__.py:178-181 | `hover` passes the two command tuples to `send_many` as two arguments, but `send_many` takes one list | `hover()` on a connected drone: TypeError, nothing sent | `self.send_many([('COMWDG',), ('PCMD', (0,0,0,0,0))])` | not executed | AsWritten.HoverAsWritten, AsWritten.HoverAsWrittenSendsNothing | Dispatcher.Hover |
| ardroneapi/__init__.py:194 | `move` calls `all` with four arguments, but `all` takes one iterable | `move(0.5, 0, 0, 0)` on a connected drone: TypeError, nothing sent | `all([not bool(roll), not bool(pitch), not bool(gaz), not bool(yaw)])` | not executed | AsWritten.MoveAsWritten, AsWritten.MoveAsWrittenSendsNothing | Dispatcher.Move |

=== FILE: as_written.dfy ===
/** Three calls in `ardroneapi/__init__.py` that cannot run as written,
    modelled as written so the discrepancy can be stated. The rest of the
    model (modules Encoder and Dispatcher) uses the evidently intended
    definitions. */
module AsWritten {
  import opened Results
  import opened DroneState
  import opened Text
  import opened WireNumeric
  import opened Encoder
  import D = Dispatcher

  /** `build_raw_commands` as written looks up `self.build_command`, which
      `Drone` does not define: the first loop iteration raises before any
      sequence number is drawn. An empty list never enters the loop. */
  function BuildRawCommandsAsWritten(d: Drone, cs: seq<Command>): Result<Batch, Error> {
    if |cs| == 0 then Success(Batch([""], d)) else Failure(AttributeError("build_command"))
  }

  /** `send_many` on top of the as-written `build_raw_commands`. */
  function SendManyAsWritten(d: Drone, cs: seq<Command>): Step {
    match BuildRawCommandsAsWritten(d, cs)
    case Failure(e) => Step(d, Failure(e))
    case Success(b) => Step(b.drone, D.SendAll(b.drone, b.texts))
  }

  /** `emergency` as written. */
  function EmergencyAsWritten(d: Drone): Step {
    SendManyAsWritten(d, [D.Ref0, D.Ref256, D.Ref0])
  }

  /** `hover` as written passes two tuples to `send_many`, which takes one
      list: the call itself raises `TypeError`. */
  function HoverAsWritten(d: Drone): Step {
    Step(d, Failure(TypeError("send_many")))
  }

  /** `move` as written calls `all` with four arguments; `all` takes one
      iterable, so every call raises `TypeError` before anything is built. */
  function MoveAsWritten(d: Drone, roll: Bits32, pitch: Bits32, gaz: Bits32, yaw: Bits32): Step {
    Step(d, Failure(TypeError("all")))
  }

  /** For every non-empty command list the as-written batch raises and uses
      no sequence number, where the intended one yields the numbered frames. */
  lemma BuildRawCommandsAsWrittenRaises(d: Drone, cs: seq<Command>)
    requires |cs| > 0
    ensures BuildRawCommandsAsWritten(d, cs) == Failure(AttributeError("build_command"))
    ensures BuildRawCommands(d, cs).texts == [Concat(Numbered(d.sequence + 1, cs))]
  {
    var b := BuildRawCommands(d, cs);
    assert b.texts == [b.texts[0]];
  }

  /** Even on a connected drone, the as-written `emergency` sends nothing
      and leaves the counter alone; the intended one sends the three `REF`
      frames. */
  lemma EmergencyAsWrittenSendsNothing(d: Drone)
    requires d.connected
    ensures EmergencyAsWritten(d) == Step(d, Failure(AttributeError("build_command")))
    ensures D.Emergency(d).result.Success?
  {
  }

  /** Even on a connected drone, the as-written `hover` sends nothing; the
      intended one sends the watchdog reset and the hover `PCMD`. */
  lemma HoverAsWrittenSendsNothing(d: Drone)
    requires d.connected
    ensures HoverAsWritten(d) == Step(d, Failure(TypeError("send_many")))
    ensures D.Hover(d).result.Success?
  {
  }

  /** Whatever its inputs, the as-written `move` sends nothing; the intended
      one always sends two frames on a connected drone. For instance roll
      0.5 (pattern 0x3F000000) with the other three inputs zero. */
  lemma MoveAsWrittenSendsNothing(d: Drone, roll: Bits32, pitch: Bits32, gaz: Bits32, yaw: Bits32)
    requires d.connected
    ensures MoveAsWritten(d, roll, pitch, gaz, yaw) == Step(d, Failure(TypeError("all")))
    ensures D.Move(d, roll, pitch, gaz, yaw).result.Success?
    ensures D.Move(d, roll, pitch, gaz, yaw).drone.sequence == d.sequence + 2
  {
  }
}

=== FILE: decimal.dfy ===
/** Decimal rendering of integers, as Python's `str(int)` writes them, and
    the reader that recovers the integer from its text. */
module Decimal {
  import opened Results

  predicate IsDigit(c: char) {
    '0' <= c <= '9'
  }

  predicate AllDigits(s: string) {
    forall i :: 0 <= i < |s| ==> IsDigit(s[i])
  }

  function DigitChar(d: nat): (c: char)
    requires d < 10
    ensures IsDigit(c)
    ensures c as int - '0' as int == d
  {
    (('0' as int) + d) as char
  }

  function DigitValue(c: char): (d: nat)
    requires IsDigit(c)
    ensures d < 10
  {
    c as int - '0' as int
  }

  /** The decimal digits of `n`: never empty, digits only, and no leading
      zero except for `0` itself. */
  function NatToString(n: nat): (s: string)
    ensures |s| >= 1
    ensures AllDigits(s)
    ensures s[0] == '0' ==> n == 0 && s == "0"
    decreases n
  {
    if n < 10 then [DigitChar(n)] else NatToString(n / 10) + [DigitChar(n % 10)]
  }

  /** One more digit on the right: the unfolding step of `NatToString`. */
  lemma NatToStringSnoc(n: nat)
    requires n >= 10
    ensures NatToString(n) == NatToString(n / 10) + [DigitChar(n % 10)]
  {
  }

  /** Python's `str(n)` for an int: a minus sign exactly when `n` is
      negative, followed by the digits of its magnitude with no leading
      zero. */
  function IntToString(n: int): (s: string)
    ensures |s| >= 1
    ensures s[0] == '-' <==> n < 0
    ensures n < 0 ==> |s| >= 2 && AllDigits(s[1..]) && s[1] != '0'
    ensures n >= 0 ==> AllDigits(s) && (s[0] == '0' ==> s == "0")
  {
    if n < 0 then "-" + NatToString(-n) else NatToString(n)
  }

  /** The value of a string of digits, most significant first. */
  function DigitsValue(s: string): nat
    requires AllDigits(s)
  {
    if |s| == 0 then 0 else DigitsValue(s[..|s| - 1]) * 10 + DigitValue(s[|s| - 1])
  }

  /** Reads a non-empty run of digits; anything else is rejected. */
  function ParseNat(s: string): Option<nat> {
    if |s| > 0 && AllDigits(s) then Some(DigitsValue(s)) else None
  }

  /** Reads an optional minus sign followed by digits. */
  function ParseInt(s: string): Option<int> {
    if |s| > 0 && s[0] == '-' then
      match ParseNat(s[1..])
      case Some(v) => Some(0 - (v as int))
      case None => None
    else
      match ParseNat(s)
      case Some(v) => Some(v)
      case None => None
  }

  lemma {:induction false} DigitsValueOfNatToString(n: nat)
    ensures DigitsValue(NatToString(n)) == n
    decreases n
  {
    var s := NatToString(n);
    if n < 10 {
      assert s[..0] == "";
    } else {
      DigitsValueOfNatToString(n / 10);
      assert s[..|s| - 1] == NatToString(n / 10);
    }
  }

  /** Reading back what `NatToString` wrote gives the number. */
  lemma NatRoundTrip(n: nat)
    ensures ParseNat(NatToString(n)) == Some(n)
  {
    DigitsValueOfNatToString(n);
  }

  /** Reading back what `IntToString` wrote gives the number. */
  lemma IntRoundTrip(n: int)
    ensures ParseInt(IntToString(n)) == Some(n)
  {
    var s := IntToString(n);
    if n < 0 {
      assert s[1..] == NatToString(-n);
      NatRoundTrip(-n);
    } else {
      NatRoundTrip(n);
    }
  }

  /** Distinct integers have distinct renderings. */
  lemma IntToStringInjective(a: int, b: int)
    ensures IntToString(a) == IntToString(b) ==> a == b
  {
    IntRoundTrip(a);
    IntRoundTrip(b);
  }
}

=== FILE: dispatcher.dfy ===
/** The `Drone` control and config commands: each action sends a fixed list
    of AT commands through `send` (one frame, one datagram) or `send_many`
    (several frames joined into one datagram). */
module Dispatcher {
  import opened Results
  import opened Decimal
  import opened Text
  import opened WireNumeric
  import opened Params
  import opened DroneState
  import opened Encoder

  /** `send`: builds the frame, which draws a sequence number, and only then
      hands it to `raw_send`; a disconnected drone has still used the number. */
  function Send(d: Drone, c: Command): (s: Step)
    ensures s.drone == Drone(d.sequence + 1, d.connected)
    ensures d.connected ==> s.result == Success([Frame(d.sequence + 1, c)])
    ensures !d.connected ==> s.result == Failure(NotConnected)
  {
    var built := BuildRawCommand(d, c);
    Step(built.drone, RawSend(built.drone, built.frame))
  }

  /** The loop of `send_many` over the datagrams: `raw_send` each in turn,
      stopping at the first exception. */
  function SendAll(d: Drone, datagrams: seq<string>): (r: Result<seq<string>, Error>)
    ensures d.connected ==> r == Success(datagrams)
    ensures !d.connected && |datagrams| > 0 ==> r == Failure(NotConnected)
    decreases |datagrams|
  {
    if |datagrams| == 0 then Success([])
    else
      match RawSend(d, datagrams[0])
      case Failure(e) => Failure(e)
      case Success(sent) =>
        match SendAll(d, datagrams[1..])
        case Failure(e) => Failure(e)
        case Success(more) =>
          assert sent + more == datagrams;
          Success(sent + more)
  }

  /** On a connected drone `send_many` writes the numbered frames as one
      datagram, whatever text they spell. */
  lemma SendManyWrites(d: Drone, cs: seq<Command>, text: string)
    requires d.connected
    requires Concat(Numbered(d.sequence + 1, cs)) == text
    ensures SendMany(d, cs).result == Success([text])
  {
  }

  /** Two sends in a row: the datagrams of both, or the first exception. */
  function AndThen(first: Result<seq<string>, Error>, second: Result<seq<string>, Error>): (r: Result<seq<string>, Error>)
    ensures first.Success? && second.Success? ==> r == Success(first.value + second.value)
    ensures first.Failure? ==> r == first
    ensures first.Success? && second.Failure? ==> r == second
  {
    match first
    case Failure(_) => first
    case Success(sent) =>
      match second
      case Failure(_) => second
      case Success(more) => Success(sent + more)
  }

  /** `send_many`: all frames are built, using one number each, before the
      single datagram is handed to `raw_send`. */
  function SendMany(d: Drone, cs: seq<Command>): (s: Step)
    ensures s.drone == Drone(d.sequence + |cs|, d.connected)
    ensures d.connected ==> s.result == Success([Concat(Numbered(d.sequence + 1, cs))])
    ensures !d.connected ==> s.result == Failure(NotConnected)
  {
    var batch := BuildRawCommands(d, cs);
    Step(batch.drone, SendAll(batch.drone, batch.texts))
  }

  /** An action that uses `k` sequence numbers and, when connected, writes
      `wire`; when disconnected it raises "Not connected yet!". */
  predicate Sends(d: Drone, s: Step, k: nat, wire: seq<string>) {
    && s.drone == Drone(d.sequence + k, d.connected)
    && s.result == (if d.connected then Success(wire) else Failure(NotConnected))
  }

  const Ref0: Command := Command("REF", [PStr("0")])
  const Ref256: Command := Command("REF", [PStr("256")])
  const Ref512: Command := Command("REF", [PStr("512")])
  const Watchdog: Command := Command("COMWDG", [])
  const HoverPcmd: Command := Command("PCMD", [PInt(0), PInt(0), PInt(0), PInt(0), PInt(0)])

  /** `PCMD` with the "move" flag 1 and the four float patterns. */
  function MovePcmd(roll: Bits32, pitch: Bits32, gaz: Bits32, yaw: Bits32): Command {
    Command("PCMD", [PInt(1), PFloat(roll), PFloat(pitch), PFloat(gaz), PFloat(yaw)])
  }

  /** `CONFIG` with the quoted key and the quoted `TRUE` or `FALSE`. */
  function ConfigCommand(name: string, value: bool): Command {
    Command("CONFIG", [PStr("\"" + name + "\""), PStr(if value then "\"TRUE\"" else "\"FALSE\"")])
  }

  /** Control modes of `get_config`. */
  const CfgGetControlMode: int := 4
  const AckControlMode: int := 5

  /** Defaults of `animate_leds` (frequency 0.5, whose pattern is
      0x3F000000, and duration 2) and of `animate` (duration 1). */
  const DefaultLedFrequency: Bits32 := 0x3F00_0000
  const DefaultLedDuration: Param := PInt(2)
  const DefaultAnimationDuration: Param := PInt(1)

  /** `takeoff`: one `REF` frame with the takeoff bit 9 set. */
  function Takeoff(d: Drone): (s: Step)
    ensures Sends(d, s, 1, [AtFrame("REF", d.sequence + 1, ",512")])
  {
    FrameLayout(d.sequence + 1, Ref512);
    StrTail("512");
    assert "," + "512" == ",512";
    Send(d, Ref512)
  }

  /** `land`: one `REF` frame with no bit set. */
  function Land(d: Drone): (s: Step)
    ensures Sends(d, s, 1, [AtFrame("REF", d.sequence + 1, ",0")])
  {
    RefZero(d.sequence + 1);
    Send(d, Ref0)
  }

  /** `emergency`: `REF 0`, `REF 256` (bit 8), `REF 0`, numbered
      consecutively and sent as one datagram. */
  function Emergency(d: Drone): (s: Step)
    ensures Sends(d, s, 3, [AtFrame("REF", d.sequence + 1, ",0")
                           + AtFrame("REF", d.sequence + 2, ",256")
                           + AtFrame("REF", d.sequence + 3, ",0")])
  {
    assert d.connected ==> (SendMany(d, [Ref0, Ref256, Ref0]).result
        == Success([AtFrame("REF", d.sequence + 1, ",0")
                    + AtFrame("REF", d.sequence + 2, ",256")
                    + AtFrame("REF", d.sequence + 3, ",0")])) by {
      if d.connected {
        EmergencyWire(d);
      }
    }
    SendMany(d, [Ref0, Ref256, Ref0])
  }

  /** The datagram `emergency` writes on a connected drone. */
  lemma EmergencyWire(d: Drone)
    requires d.connected
    ensures SendMany(d, [Ref0, Ref256, Ref0]).result
        == Success([AtFrame("REF", d.sequence + 1, ",0")
                    + AtFrame("REF", d.sequence + 2, ",256")
                    + AtFrame("REF", d.sequence + 3, ",0")])
  {
    var n := d.sequence + 1;
    EmergencyFrames(n);
    SendManyWrites(d, [Ref0, Ref256, Ref0],
                   AtFrame("REF", n, ",0") + AtFrame("REF", n + 1, ",256") + AtFrame("REF", n + 2, ",0"));
  }

  lemma EmergencyFrames(n: nat)
    ensures Concat(Numbered(n, [Ref0, Ref256, Ref0]))
      == AtFrame("REF", n, ",0") + AtFrame("REF", n + 1, ",256") + AtFrame("REF", n + 2, ",0")
  {
    RefZero(n);
    RefZero(n + 2);
    StrTail("256");
    assert "," + "256" == ",256";
    FrameLayout(n + 1, Ref256);
    assert Frame(n + 1, Ref256) == AtFrame("REF", n + 1, ",256");
    ThreeFrames(n, Ref0, Ref256, Ref0);
  }

  /** `recover`: one `REF` frame clearing the emergency bit, which is the
      very frame `land` writes. */
  function Recover(d: Drone): (s: Step)
    ensures Sends(d, s, 1, [AtFrame("REF", d.sequence + 1, ",0")])
    ensures s == Land(d)
  {
    RefZero(d.sequence + 1);
    Send(d, Ref0)
  }

  /** `hover`: the watchdog reset, then `PCMD` with the "hover" flag 0 and
      four zeros, in one datagram. ardroneapi/__init__.py:178-181 passes
      the two commands as two arguments to `send_many` instead of one
      list; this is the evident intent (the call as written is in module
      AsWritten). */
  function Hover(d: Drone): (s: Step)
    ensures Sends(d, s, 2, [AtFrame("COMWDG", d.sequence + 1, "")
                           + AtFrame("PCMD", d.sequence + 2, ",0,0,0,0,0")])
  {
    assert d.connected ==> (SendMany(d, [Watchdog, HoverPcmd]).result
        == Success([AtFrame("COMWDG", d.sequence + 1, "")
                    + AtFrame("PCMD", d.sequence + 2, ",0,0,0,0,0")])) by {
      if d.connected {
        HoverWire(d);
      }
    }
    SendMany(d, [Watchdog, HoverPcmd])
  }

  /** The datagram `hover` writes on a connected drone. */
  lemma HoverWire(d: Drone)
    requires d.connected
    ensures SendMany(d, [Watchdog, HoverPcmd]).result
        == Success([AtFrame("COMWDG", d.sequence + 1, "")
                    + AtFrame("PCMD", d.sequence + 2, ",0,0,0,0,0")])
  {
    var n := d.sequence + 1;
    HoverFrames(n);
    SendManyWrites(d, [Watchdog, HoverPcmd],
                   AtFrame("COMWDG", n, "") + AtFrame("PCMD", n + 1, ",0,0,0,0,0"));
  }

  lemma HoverFrames(n: nat)
    ensures Concat(Numbered(n, [Watchdog, HoverPcmd]))
      == AtFrame("COMWDG", n, "") + AtFrame("PCMD", n + 1, ",0,0,0,0,0")
  {
    HoverTail();
    FrameLayout(n, Watchdog);
    FrameLayout(n + 1, HoverPcmd);
    assert Frame(n, Watchdog) == AtFrame("COMWDG", n, "");
    assert Frame(n + 1, HoverPcmd) == AtFrame("PCMD", n + 1, Tail(HoverPcmd.params));
    TwoFrames(n, Watchdog, HoverPcmd);
  }

  /** `move`: when all four inputs are zero (either sign) it is exactly
      `hover`; otherwise the watchdog reset, then `PCMD` with the "move"
      flag 1 and the four patterns. ardroneapi/__init__.py:194 calls `all`
      with four arguments instead of one iterable; this is the evident
      intent. */
  function Move(d: Drone, roll: Bits32, pitch: Bits32, gaz: Bits32, yaw: Bits32): (s: Step)
    ensures IsZeroFloat(roll) && IsZeroFloat(pitch) && IsZeroFloat(gaz) && IsZeroFloat(yaw)
      ==> s == Hover(d)
    ensures !(IsZeroFloat(roll) && IsZeroFloat(pitch) && IsZeroFloat(gaz) && IsZeroFloat(yaw))
      ==> Sends(d, s, 2, [AtFrame("COMWDG", d.sequence + 1, "")
                         + AtFrame("PCMD", d.sequence + 2, ",1," + EncodeParam(PFloat(roll)) + "," + EncodeParam(PFloat(pitch))
                                                           + "," + EncodeParam(PFloat(gaz)) + "," + EncodeParam(PFloat(yaw)))])
  {
    if IsZeroFloat(roll) && IsZeroFloat(pitch) && IsZeroFloat(gaz) && IsZeroFloat(yaw) then
      Hover(d)
    else
      assert d.connected ==> (SendMany(d, [Watchdog, MovePcmd(roll, pitch, gaz, yaw)]).result
          == Success([AtFrame("COMWDG", d.sequence + 1, "")
                      + AtFrame("PCMD", d.sequence + 2, ",1," + EncodeParam(PFloat(roll)) + "," + EncodeParam(PFloat(pitch))
                                                        + "," + EncodeParam(PFloat(gaz)) + "," + EncodeParam(PFloat(yaw)))])) by {
        if d.connected {
          MoveWire(d, roll, pitch, gaz, yaw);
        }
      }
      SendMany(d, [Watchdog, MovePcmd(roll, pitch, gaz, yaw)])
  }

  /** The datagram `move` writes on a connected drone. */
  lemma MoveWire(d: Drone, roll: Bits32, pitch: Bits32, gaz: Bits32, yaw: Bits32)
    requires d.connected
    ensures SendMany(d, [Watchdog, MovePcmd(roll, pitch, gaz, yaw)]).result
          == Success([AtFrame("COMWDG", d.sequence + 1, "")
                      + AtFrame("PCMD", d.sequence + 2, ",1," + EncodeParam(PFloat(roll)) + "," + EncodeParam(PFloat(pitch))
                                                        + "," + EncodeParam(PFloat(gaz)) + "," + EncodeParam(PFloat(yaw)))])
  {
    var n := d.sequence + 1;
    MoveFrames(n, roll, pitch, gaz, yaw);
    SendManyWrites(d, [Watchdog, MovePcmd(roll, pitch, gaz, yaw)],
                   AtFrame("COMWDG", n, "")
                   + AtFrame("PCMD", n + 1, ",1," + EncodeParam(PFloat(roll)) + "," + EncodeParam(PFloat(pitch))
                                            + "," + EncodeParam(PFloat(gaz)) + "," + EncodeParam(PFloat(yaw))));
  }

  lemma MoveFrames(n: nat, roll: Bits32, pitch: Bits32, gaz: Bits32, yaw: Bits32)
    ensures Concat(Numbered(n, [Watchdog, MovePcmd(roll, pitch, gaz, yaw)]))
      == AtFrame("COMWDG", n, "")
         + AtFrame("PCMD", n + 1, ",1," + EncodeParam(PFloat(roll)) + "," + EncodeParam(PFloat(pitch))
                                  + "," + EncodeParam(PFloat(gaz)) + "," + EncodeParam(PFloat(yaw)))
  {
    var pcmd := MovePcmd(roll, pitch, gaz, yaw);
    MoveTail(roll, pitch, gaz, yaw);
    FrameLayout(n, Watchdog);
    FrameLayout(n + 1, pcmd);
    assert Frame(n, Watchdog) == AtFrame("COMWDG", n, "");
    assert Frame(n + 1, pcmd) == AtFrame("PCMD", n + 1, Tail(pcmd.params));
    TwoFrames(n, Watchdog, pcmd);
  }

  /** `flat_trims`: `FTRIM` with no parameters. */
  function FlatTrims(d: Drone): (s: Step)
    ensures Sends(d, s, 1, [AtFrame("FTRIM", d.sequence + 1, "")])
  {
    FrameLayout(d.sequence + 1, Command("FTRIM", []));
    Send(d, Command("FTRIM", []))
  }

  /** `select_video_channel`: `ZAP` with the mode as given. */
  function SelectVideoChannel(d: Drone, mode: Param): (s: Step)
    ensures Sends(d, s, 1, [AtFrame("ZAP", d.sequence + 1, "," + EncodeParam(mode))])
  {
    FrameLayout(d.sequence + 1, Command("ZAP", [mode]));
    OneTail(mode);
    Send(d, Command("ZAP", [mode]))
  }

  /** `enable_autonomous_flight`: `AFLIGHT 1`. */
  function EnableAutonomousFlight(d: Drone): (s: Step)
    ensures Sends(d, s, 1, [AtFrame("AFLIGHT", d.sequence + 1, ",1")])
  {
    FrameLayout(d.sequence + 1, Command("AFLIGHT", [PInt(1)]));
    IntTail(1);
    assert "," + [DigitChar(1)] == ",1";
    Send(d, Command("AFLIGHT", [PInt(1)]))
  }

  /** `disable_autonomous_flight`: `AFLIGHT 0`. */
  function DisableAutonomousFlight(d: Drone): (s: Step)
    ensures Sends(d, s, 1, [AtFrame("AFLIGHT", d.sequence + 1, ",0")])
  {
    FrameLayout(d.sequence + 1, Command("AFLIGHT", [PInt(0)]));
    IntTail(0);
    assert "," + [DigitChar(0)] == ",0";
    Send(d, Command("AFLIGHT", [PInt(0)]))
  }

  /** `animate_leds`: `LED` with the animation, the frequency forced to a
      float (so sent as its pattern) and the duration. */
  function AnimateLeds(d: Drone, animation: Param, frequency: Bits32, duration: Param): (s: Step)
    ensures Sends(d, s, 1, [AtFrame("LED", d.sequence + 1, "," + EncodeParam(animation) + ","
                                    + EncodeParam(PFloat(frequency)) + "," + EncodeParam(duration))])
  {
    FrameLayout(d.sequence + 1, Command("LED", [animation, PFloat(frequency), duration]));
    ThreeTail(animation, PFloat(frequency), duration);
    Send(d, Command("LED", [animation, PFloat(frequency), duration]))
  }

  /** `animate`: `ANIM` with the animation and the duration. */
  function Animate(d: Drone, animation: Param, duration: Param): (s: Step)
    ensures Sends(d, s, 1, [AtFrame("ANIM", d.sequence + 1, "," + EncodeParam(animation) + ","
                                    + EncodeParam(duration))])
  {
    FrameLayout(d.sequence + 1, Command("ANIM", [animation, duration]));
    TwoTail(animation, duration);
    Send(d, Command("ANIM", [animation, duration]))
  }

  /** `animate_leds(animation)`, leaving frequency and duration at their
      defaults 0.5 and 2: the frequency goes out as the integer of the
      pattern 0x3F000000. */
  lemma AnimateLedsDefaults(d: Drone, animation: Param)
    ensures Sends(d, AnimateLeds(d, animation, DefaultLedFrequency, DefaultLedDuration), 1,
                  [AtFrame("LED", d.sequence + 1, "," + EncodeParam(animation) + ",1056964608,2")])
  {
    DefaultLedTexts();
    LedDefaultsTail(EncodeParam(animation));
  }

  /** The parameter part of `animate_leds(animation)`, with the default
      texts in place. */
  lemma LedDefaultsTail(x: string)
    ensures "," + x + "," + "1056964608" + "," + "2" == "," + x + ",1056964608,2"
  {
    assert "," + x + "," + "1056964608" + "," + "2" == "," + x + ("," + "1056964608" + "," + "2");
  }

  lemma DefaultLedTexts()
    ensures EncodeParam(PFloat(DefaultLedFrequency)) == "1056964608"
    ensures EncodeParam(DefaultLedDuration) == "2"
  {
    HalfRendersAsBitPattern();
    assert EncodeParam(DefaultLedDuration) == [DigitChar(2)];
  }

  /** The class docstring's `d.animate_leds(13)`: one `LED` frame
      `AT*LED=<n>,13,1056964608,2\r`. */
  lemma DoubleMissileExample(d: Drone)
    ensures Sends(d, AnimateLeds(d, PInt(13), DefaultLedFrequency, DefaultLedDuration), 1,
                  [AtFrame("LED", d.sequence + 1, ",13,1056964608,2")])
  {
    AnimateLedsDefaults(d, PInt(13));
    ThirteenText();
  }

  /** The animation 13 is sent as the text `13`. */
  lemma ThirteenText()
    ensures EncodeParam(PInt(13)) == "13"
    ensures "," + "13" + ",1056964608,2" == ",13,1056964608,2"
  {
    NatToStringSnoc(13);
    assert NatToString(13) == [DigitChar(1)] + [DigitChar(3)];
  }

  /** `animate(animation)`, leaving the duration at its default 1. */
  lemma AnimateDefaults(d: Drone, animation: Param)
    ensures Sends(d, Animate(d, animation, DefaultAnimationDuration), 1,
                  [AtFrame("ANIM", d.sequence + 1, "," + EncodeParam(animation) + ",1")])
  {
    var x := EncodeParam(animation);
    assert EncodeParam(DefaultAnimationDuration) == [DigitChar(1)] == "1";
    assert "," + x + "," + "1" == "," + x + ",1";
  }

  /** `reset_communications_watchdog`: `COMWDG` with no parameters. */
  function ResetCommunicationsWatchdog(d: Drone): (s: Step)
    ensures Sends(d, s, 1, [AtFrame("COMWDG", d.sequence + 1, "")])
  {
    FrameLayout(d.sequence + 1, Watchdog);
    Send(d, Watchdog)
  }

  /** The `CONFIG` parameter part for a key and a truth value. */
  function ConfigTail(name: string, value: bool): string {
    ",\"" + name + "\"," + (if value then "\"TRUE\"" else "\"FALSE\"")
  }

  /** `set_config`: `CONFIG` with the key in double quotes and `"TRUE"` or
      `"FALSE"`, quotes included, chosen by the truthiness of the value. */
  function SetConfig(d: Drone, name: string, value: bool): (s: Step)
    ensures Sends(d, s, 1, [AtFrame("CONFIG", d.sequence + 1, ConfigTail(name, value))])
  {
    FrameLayout(d.sequence + 1, ConfigCommand(name, value));
    ConfigTailIs(name, value);
    Send(d, ConfigCommand(name, value))
  }

  /** `activate_detailed_navdata`: sets `general:navdata_demo` to TRUE. */
  function ActivateDetailedNavdata(d: Drone): (s: Step)
    ensures Sends(d, s, 1, [AtFrame("CONFIG", d.sequence + 1, ",\"general:navdata_demo\",\"TRUE\"")])
  {
    assert ConfigTail("general:navdata_demo", true) == ",\"general:navdata_demo\",\"TRUE\"";
    SetConfig(d, "general:navdata_demo", true)
  }

  /** The two `CTRL` commands of `get_config`. */
  const AckCtrl: Command := Command("CTRL", [PInt(AckControlMode)])
  const CfgCtrl: Command := Command("CTRL", [PInt(CfgGetControlMode)])

  /** `get_config`: `CTRL 5` then `CTRL 4`, two separate sends and so two
      datagrams, under consecutive numbers. Disconnected, the first send
      raises, so only one number is used and the second frame is never
      built. */
  function GetConfig(d: Drone): (s: Step)
    ensures d.connected ==> s == Step(Drone(d.sequence + 2, true),
                                      Success([Frame(d.sequence + 1, AckCtrl), Frame(d.sequence + 2, CfgCtrl)]))
    ensures !d.connected ==> s == Step(Drone(d.sequence + 1, false), Failure(NotConnected))
  {
    var first := Send(d, AckCtrl);
    if first.result.Failure? then first
    else
      var second := Send(first.drone, CfgCtrl);
      assert [Frame(d.sequence + 1, AckCtrl)] + [Frame(d.sequence + 2, CfgCtrl)]
        == [Frame(d.sequence + 1, AckCtrl), Frame(d.sequence + 2, CfgCtrl)];
      Step(second.drone, AndThen(first.result, second.result))
  }

  /** The two datagrams of `get_config` on a connected drone. */
  lemma GetConfigWire(d: Drone)
    requires d.connected
    ensures GetConfig(d).result == Success([AtFrame("CTRL", d.sequence + 1, ",5"),
                                            AtFrame("CTRL", d.sequence + 2, ",4")])
  {
    var n := d.sequence + 1;
    var s := GetConfig(d);
    assert s.result == Success([Frame(n, AckCtrl), Frame(n + 1, CfgCtrl)]);
    CtrlFrames(n);
  }

  lemma CtrlFrames(n: nat)
    ensures Frame(n, AckCtrl) == AtFrame("CTRL", n, ",5")
    ensures Frame(n + 1, CfgCtrl) == AtFrame("CTRL", n + 1, ",4")
  {
    FrameLayout(n, AckCtrl);
    FrameLayout(n + 1, CfgCtrl);
    IntTail(AckControlMode);
    IntTail(CfgGetControlMode);
    assert "," + [DigitChar(5)] == ",5";
    assert "," + [DigitChar(4)] == ",4";
  }

  lemma OneTail(p: Param)
    ensures Tail([p]) == "," + EncodeParam(p)
  {
    assert [p][1..] == [];
  }

  lemma RefZero(n: nat)
    ensures Frame(n, Ref0) == AtFrame("REF", n, ",0")
  {
    FrameLayout(n, Ref0);
    StrTail("0");
    assert "," + "0" == ",0";
  }

  lemma StrTail(t: string)
    ensures Tail([PStr(t)]) == "," + t
  {
    OneTail(PStr(t));
  }

  lemma IntTail(i: int)
    requires 0 <= i < 10
    ensures Tail([PInt(i)]) == "," + [DigitChar(i)]
  {
    OneTail(PInt(i));
  }

  lemma TwoTail(p: Param, q: Param)
    ensures Tail([p, q]) == "," + EncodeParam(p) + "," + EncodeParam(q)
  {
    assert [p, q][1..] == [q];
    OneTail(q);
  }

  lemma ThreeTail(p: Param, q: Param, r: Param)
    ensures Tail([p, q, r]) == "," + EncodeParam(p) + "," + EncodeParam(q) + "," + EncodeParam(r)
  {
    assert [p, q, r][1..] == [q, r];
    TwoTail(q, r);
  }

  lemma HoverTail()
    ensures Tail(HoverPcmd.params) == ",0,0,0,0,0"
  {
    var z := PInt(0);
    var ps := HoverPcmd.params;
    assert EncodeParam(z) == "0";
    assert Tail(ps[4..]) == ",0";
    assert Tail(ps[3..]) == ",0" + Tail(ps[4..]);
    assert Tail(ps[2..]) == ",0" + Tail(ps[3..]);
    assert Tail(ps[1..]) == ",0" + Tail(ps[2..]);
    assert Tail(ps) == ",0" + Tail(ps[1..]);
  }

  lemma MoveTail(roll: Bits32, pitch: Bits32, gaz: Bits32, yaw: Bits32)
    ensures Tail(MovePcmd(roll, pitch, gaz, yaw).params)
      == ",1," + EncodeParam(PFloat(roll)) + "," + EncodeParam(PFloat(pitch)) + "," + EncodeParam(PFloat(gaz)) + "," + EncodeParam(PFloat(yaw))
  {
    var r, p, g, y := EncodeParam(PFloat(roll)), EncodeParam(PFloat(pitch)), EncodeParam(PFloat(gaz)), EncodeParam(PFloat(yaw));
    var l3 := [PFloat(pitch), PFloat(gaz), PFloat(yaw)];
    var l4 := [PFloat(roll)] + l3;
    var l5 := [PInt(1)] + l4;
    assert l5 == MovePcmd(roll, pitch, gaz, yaw).params;
    ThreeTail(PFloat(pitch), PFloat(gaz), PFloat(yaw));
    var t3 := Tail(l3);
    assert t3 == "," + p + "," + g + "," + y;
    ConsTail(PFloat(roll), l3);
    var t4 := Tail(l4);
    assert t4 == "," + r + t3;
    ConsTail(PInt(1), l4);
    assert EncodeParam(PInt(1)) == "1";
    assert Tail(l5) == "," + "1" + t4;
    CommaJoinFour(r, p, g, y);
  }

  lemma CommaJoinFour(r: string, p: string, g: string, y: string)
    ensures "," + "1" + ("," + r + ("," + p + "," + g + "," + y))
      == ",1," + r + "," + p + "," + g + "," + y
  {
  }

  lemma ConsTail(p: Param, ps: seq<Param>)
    ensures Tail([p] + ps) == "," + EncodeParam(p) + Tail(ps)
  {
    assert ([p] + ps)[1..] == ps;
  }

  lemma ConfigTailIs(name: string, value: bool)
    ensures Tail(ConfigCommand(name, value).params) == ConfigTail(name, value)
  {
    var v := if value then "\"TRUE\"" else "\"FALSE\"";
    TwoTail(PStr("\"" + name + "\""), PStr(v));
  }

  /** Two consecutively numbered frames as one text. */
  lemma TwoFrames(n: nat, a: Command, b: Command)
    ensures Concat(Numbered(n, [a, b])) == Frame(n, a) + Frame(n + 1, b)
  {
    var fs := Numbered(n, [a, b]);
    NumberedFrames(n, [a, b]);
    assert fs == [Frame(n, a), Frame(n + 1, b)];
    ConcatTwo(Frame(n, a), Frame(n + 1, b));
  }

  /** Three consecutively numbered frames as one text. */
  lemma ThreeFrames(n: nat, a: Command, b: Command, c: Command)
    ensures Concat(Numbered(n, [a, b, c])) == Frame(n, a) + Frame(n + 1, b) + Frame(n + 2, c)
  {
    var fs := Numbered(n, [a, b, c]);
    NumberedFrames(n, [a, b, c]);
    assert fs == [Frame(n, a), Frame(n + 1, b), Frame(n + 2, c)];
    ConcatThree(Frame(n, a), Frame(n + 1, b), Frame(n + 2, c));
  }

  lemma ConcatTwo(x: string, y: string)
    ensures Concat([x, y]) == x + y
  {
    assert [x, y][1..] == [y];
    assert [y][1..] == [];
    assert Concat([y]) == y + Concat([]);
    assert Concat([x, y]) == x + Concat([y]);
  }

  lemma ConcatThree(x: string, y: string, z: string)
    ensures Concat([x, y, z]) == x + y + z
  {
    assert [x, y, z][1..] == [y, z];
    ConcatTwo(y, z);
  }
}

=== FILE: drone.dfy ===
/** The state one `Drone` object carries across calls: its sequence counter
    and whether a command socket is open. Socket addresses and the sockets
    themselves are not part of this model; the open socket is a boolean. */
module DroneState {
  import opened Results

  /** The exceptions the command layer can raise. */
  datatype Error =
    | Exception(message: string)   // `raise Exception(...)`
    | AttributeError(name: string) // a missing attribute was looked up
    | TypeError(callee: string)    // a call with the wrong number of arguments

  /** What `raw_send` raises when no command socket is open. */
  const NotConnected: Error := Exception("Not connected yet!")

  datatype Drone = Drone(sequence: nat, connected: bool)

  /** A newly constructed `Drone()`: counter 0, no command socket. */
  const Fresh: Drone := Drone(0, false)

  /** The outcome of one call: the drone afterwards, and either the datagrams
      written to the command socket or the exception raised. */
  datatype Step = Step(drone: Drone, result: Result<seq<string>, Error>)

  /** `connect` / `connect_cmd`: opens the command socket; the counter is
      untouched, so numbering continues across reconnects. */
  function Connect(d: Drone): (d': Drone)
    ensures d'.connected
    ensures d'.sequence == d.sequence
  {
    Drone(d.sequence, true)
  }

  /** `disconnect` / `disconnect_cmd`: closes the socket; with no socket the
      `close` lookup on `None` raises. The counter is untouched. */
  function Disconnect(d: Drone): (r: Result<Drone, Error>)
    ensures r.Success? <==> d.connected
    ensures r.Success? ==> !r.value.connected && r.value.sequence == d.sequence
    ensures r.Failure? ==> r.error.AttributeError?
  {
    if d.connected then Success(Drone(d.sequence, false)) else Failure(AttributeError("close"))
  }

  /** Closing right after opening succeeds and leaves a disconnected drone
      with the same counter; opening again after a close gives back the
      connected drone, counter included. */
  lemma ConnectDisconnectRoundTrip(d: Drone)
    ensures Disconnect(Connect(d)) == Success(Drone(d.sequence, false))
    ensures d.connected ==> Connect(Disconnect(d).value) == d
  {
  }

  datatype Issued = Issued(number: nat, drone: Drone)

  /** `sequence()`: pre-increments the counter and returns the new value. */
  function Sequence(d: Drone): (r: Issued)
    ensures r.number == d.sequence + 1 == r.drone.sequence
    ensures r.drone.connected == d.connected
  {
    Issued(d.sequence + 1, Drone(d.sequence + 1, d.connected))
  }

  /** The numbers handed out by `k` successive `sequence()` calls. */
  function IssueMany(d: Drone, k: nat): (r: (seq<nat>, Drone))
    decreases k
  {
    if k == 0 then ([], d)
    else
      var first := Sequence(d);
      var rest := IssueMany(first.drone, k - 1);
      ([first.number] + rest.0, rest.1)
  }

  /** `k` calls hand out the next `k` numbers in order and leave the counter
      at the last of them. */
  lemma {:induction false} IssueManyConsecutive(d: Drone, k: nat)
    ensures |IssueMany(d, k).0| == k
    ensures forall i :: 0 <= i < k ==> IssueMany(d, k).0[i] == d.sequence + 1 + i
    ensures IssueMany(d, k).1 == Drone(d.sequence + k, d.connected)
    decreases k
  {
    if k > 0 {
      IssueManyConsecutive(Sequence(d).drone, k - 1);
    }
  }

  /** From a fresh drone, `N` calls yield exactly 1..N: strictly increasing,
      so no number is repeated, and none is skipped. */
  lemma FreshIssuesOneToN(k: nat)
    ensures var nums := IssueMany(Fresh, k).0;
      |nums| == k
      && (forall i :: 0 <= i < k ==> nums[i] == i + 1)
      && (forall i, j :: 0 <= i < j < k ==> nums[i] < nums[j])
  {
    IssueManyConsecutive(Fresh, k);
  }

  /** `raw_send`: writes one datagram when a socket is open, and otherwise
      raises "Not connected yet!". The drone itself is not changed. */
  function RawSend(d: Drone, data: string): (r: Result<seq<string>, Error>)
    ensures r.Success? <==> d.connected
    ensures r.Success? ==> r.value == [data]
    ensures r.Failure? ==> r.error == NotConnected
  {
    if !d.connected then Failure(NotConnected) else Success([data])
  }

  /** `raw_send` writes after a `connect` that succeeds and raises after
      `disconnect`. A second `connect` on a connected drone fails at `bind`
      in the code; `Connect` leaves such a drone as it is. */
  lemma RawSendFollowsConnection(d: Drone, data: string)
    ensures RawSend(Connect(d), data) == Success([data])
    ensures d.connected ==> RawSend(Disconnect(d).value, data) == Failure(NotConnected)
  {
  }
}

=== FILE: encoder.dfy ===
/** `build_raw_command` and `build_raw_commands`: the AT frame
    `AT*<method>=<seq>,<p1>,...,<pn>\r`, numbered from the drone's counter,
    and the reader that takes such a frame apart again. */
module Encoder {
  import opened Results
  import opened Decimal
  import opened Text
  import opened Params
  import opened DroneState

  /** One command of a batch: a method code and its parameters. A missing
      parameter tuple (`params=None`) is the empty sequence. */
  datatype Command = Command(code: string, params: seq<Param>)

  /** The parameter part of a frame written as one `","+text` per parameter. */
  function Tail(ps: seq<Param>): string
    decreases |ps|
  {
    if |ps| == 0 then "" else "," + EncodeParam(ps[0]) + Tail(ps[1..])
  }

  lemma {:induction false} JoinIsTail(x: string, ps: seq<Param>)
    ensures Join([x] + EncodeAll(ps), ',') == x + Tail(ps)
    decreases |ps|
  {
    if |ps| > 0 {
      var rest := EncodeAll(ps[1..]);
      assert EncodeAll(ps) == [EncodeParam(ps[0])] + rest;
      JoinIsTail(EncodeParam(ps[0]), ps[1..]);
      JoinCons(x, EncodeAll(ps), ',');
      assert [x] + EncodeAll(ps) == [x] + ([EncodeParam(ps[0])] + rest);
    } else {
      assert [x] + EncodeAll(ps) == [x];
    }
  }

  /** The wire layout `AT*<code>=<n><tail>\r`, where `tail` is the
      parameter part, empty or starting with a comma. */
  function AtFrame(code: string, n: nat, tail: string): string {
    "AT*" + code + "=" + IntToString(n) + tail + "\r"
  }

  /** The frame for command `c` under sequence number `n`, built as
      `build_raw_command` builds it: the number and the rendered parameters
      joined by commas, after `AT*<method>=`, closed by a carriage return. */
  function Frame(n: nat, c: Command): string {
    "AT*" + c.code + "=" + Join([IntToString(n)] + EncodeAll(c.params), ',') + "\r"
  }

  /** The layout of a frame: one `,<text>` per parameter after the number,
      so with no parameters nothing, not even a comma, follows it. */
  lemma FrameLayout(n: nat, c: Command)
    ensures Frame(n, c) == AtFrame(c.code, n, Tail(c.params))
    ensures |c.params| == 0 ==> Frame(n, c) == "AT*" + c.code + "=" + IntToString(n) + "\r"
  {
    JoinIsTail(IntToString(n), c.params);
  }

  /** A frame taken apart: method, sequence number, parameter texts. */
  datatype Parsed = Parsed(code: string, sequence: nat, fields: seq<string>)

  /** Reads `AT*<method>=<seq>[,<field>]*\r`: the prefix, the closing
      carriage return, then the body in between. */
  function ParseFrame(s: string): Option<Parsed> {
    if |s| < 4 || s[..3] != "AT*" || s[|s| - 1] != '\r' then None
    else ParseBody(s[3..|s| - 1])
  }

  /** Reads `<method>=<seq>[,<field>]*`: the method ends at the first `=`,
      the fields are separated by commas and the first is the number. */
  function ParseBody(body: string): Option<Parsed> {
    match IndexOf(body, '=')
    case None => None
    case Some(k) =>
      var fields := Split(body[k + 1..], ',');
      match ParseNat(fields[0])
      case None => None
      case Some(n) => Some(Parsed(body[..k], n, fields[1..]))
  }

  /** A command whose frame can be read back unambiguously: the method holds
      no `=` and no parameter text holds a comma. Numbers never do; only a
      string parameter can break this. */
  predicate Parsable(c: Command) {
    '=' !in c.code && forall k :: 0 <= k < |c.params| ==> ',' !in EncodeParam(c.params[k])
  }

  /** Reading a frame gives back its method, its number and its parameters'
      texts. */
  lemma FrameRoundTrip(n: nat, c: Command)
    ensures Parsable(c) ==> ParseFrame(Frame(n, c)) == Some(Parsed(c.code, n, EncodeAll(c.params)))
  {
    if !Parsable(c) {
      return;
    }
    var fields := EncodeAll(c.params);
    var body := c.code + ['='] + Join([IntToString(n)] + fields, ',');
    var s := Frame(n, c);
    assert s == "AT*" + body + "\r";
    assert s[..3] == "AT*";
    assert s[3..|s| - 1] == body;
    forall i | 0 <= i < |fields|
      ensures ',' !in fields[i]
    {
      assert fields[i] == EncodeParam(c.params[i]);
    }
    BodyRoundTrip(c.code, n, fields);
  }

  /** Reading the body of a frame gives back the method, the number and
      the fields, provided the method has no `=` and no field a comma. */
  lemma BodyRoundTrip(code: string, n: nat, fields: seq<string>)
    requires '=' !in code
    requires forall i :: 0 <= i < |fields| ==> ',' !in fields[i]
    ensures ParseBody(code + ['='] + Join([IntToString(n)] + fields, ',')) == Some(Parsed(code, n, fields))
  {
    var fs := [IntToString(n)] + fields;
    var j := Join(fs, ',');
    var body := code + ['='] + j;
    IndexOfAfter(code, '=', j);
    assert body[..|code|] == code;
    assert body[|code| + 1..] == j;
    NoSeparatorsInNumber(n);
    assert forall i :: 0 <= i < |fs| ==> ',' !in fs[i] by {
      forall i | 0 <= i < |fs|
        ensures ',' !in fs[i]
      {
        if i > 0 {
          assert fs[i] == fields[i - 1];
        }
      }
    }
    SplitJoin(fs, ',');
    NatRoundTrip(n);
    assert fs[1..] == fields;
  }

  datatype Built = Built(frame: string, drone: Drone)

  /** `build_raw_command`: draws the next sequence number and renders the
      frame with it, so it consumes exactly one number. */
  function BuildRawCommand(d: Drone, c: Command): (r: Built)
    ensures r.drone == Drone(d.sequence + 1, d.connected)
    ensures r.frame == Frame(d.sequence + 1, c)
  {
    var issued := Sequence(d);
    Built(Frame(issued.number, c), issued.drone)
  }

  /** The frame `build_raw_command` returns reads back as the command under
      the number it drew. */
  lemma BuildRawCommandReadsBack(d: Drone, c: Command)
    requires Parsable(c)
    ensures ParseFrame(BuildRawCommand(d, c).frame) == Some(Parsed(c.code, d.sequence + 1, EncodeAll(c.params)))
  {
    FrameRoundTrip(d.sequence + 1, c);
  }

  /** The frames of `cs` numbered consecutively from `start`. */
  function Numbered(start: nat, cs: seq<Command>): (fs: seq<string>)
    ensures |fs| == |cs|
    decreases |cs|
  {
    if |cs| == 0 then [] else [Frame(start, cs[0])] + Numbered(start + 1, cs[1..])
  }

  /** The `i`-th frame of a numbered list is the `i`-th command under the
      number `start + i`. */
  lemma {:induction false} NumberedFrames(start: nat, cs: seq<Command>)
    ensures forall i :: 0 <= i < |cs| ==> Numbered(start, cs)[i] == Frame(start + i, cs[i])
    decreases |cs|
  {
    if |cs| > 0 {
      var rest := Numbered(start + 1, cs[1..]);
      NumberedFrames(start + 1, cs[1..]);
      forall i | 0 < i < |cs|
        ensures Numbered(start, cs)[i] == Frame(start + i, cs[i])
      {
        assert Numbered(start, cs)[i] == rest[i - 1];
        assert cs[1..][i - 1] == cs[i];
      }
    }
  }

  /** Numbering two lists one after the other is numbering their join. */
  lemma NumberedAppend(start: nat, a: seq<Command>, b: seq<Command>)
    ensures Numbered(start, a + b) == Numbered(start, a) + Numbered(start + |a|, b)
  {
    var lhs := Numbered(start, a + b);
    var rhs := Numbered(start, a) + Numbered(start + |a|, b);
    NumberedFrames(start, a + b);
    NumberedFrames(start, a);
    NumberedFrames(start + |a|, b);
    forall i | 0 <= i < |a + b|
      ensures lhs[i] == rhs[i]
    {
      if i >= |a| {
        assert (a + b)[i] == b[i - |a|];
      }
    }
  }

  /** Every frame of a numbered list reads back with its own number. */
  lemma NumberedRoundTrip(start: nat, cs: seq<Command>)
    requires forall i :: 0 <= i < |cs| ==> Parsable(cs[i])
    ensures forall i :: 0 <= i < |cs| ==>
      ParseFrame(Numbered(start, cs)[i]) == Some(Parsed(cs[i].code, start + i, EncodeAll(cs[i].params)))
  {
    var fs := Numbered(start, cs);
    NumberedFrames(start, cs);
    forall i | 0 <= i < |cs|
      ensures ParseFrame(fs[i]) == Some(Parsed(cs[i].code, start + i, EncodeAll(cs[i].params)))
    {
      var c := cs[i];
      assert Parsable(c);
      assert fs[i] == Frame(start + i, c);
      FrameRoundTrip(start + i, c);
    }
  }

  datatype Batch = Batch(texts: seq<string>, drone: Drone)

  /** The list `r` of `build_raw_commands`: one `build_raw_command` per
      command, in order, each drawing the next number. */
  function BuildEach(d: Drone, cs: seq<Command>): (r: Batch)
    ensures r.texts == Numbered(d.sequence + 1, cs)
    ensures r.drone == Drone(d.sequence + |cs|, d.connected)
    decreases |cs|
  {
    if |cs| == 0 then Batch([], d)
    else
      var first := BuildRawCommand(d, cs[0]);
      var rest := BuildEach(first.drone, cs[1..]);
      Batch([first.frame] + rest.texts, rest.drone)
  }

  /** `build_raw_commands`: every command's frame, consecutively numbered in
      list order, joined into the single datagram of a one-element list. */
  function BuildRawCommands(d: Drone, cs: seq<Command>): (r: Batch)
    ensures |r.texts| == 1
    ensures r.texts[0] == Concat(Numbered(d.sequence + 1, cs))
    ensures r.drone == Drone(d.sequence + |cs|, d.connected)
  {
    var each := BuildEach(d, cs);
    Batch([Concat(each.texts)], each.drone)
  }

  /** The loop of `build_raw_commands`, appending each command's frame to
      `r` and then joining `r` into one datagram. */
  method BuildRawCommandsLoop(d: Drone, cs: seq<Command>) returns (datagrams: seq<string>, d': Drone)
    ensures datagrams == [Concat(Numbered(d.sequence + 1, cs))]
    ensures d' == Drone(d.sequence + |cs|, d.connected)
  {
    var r: seq<string> := [];
    d' := d;
    var k := 0;
    while k < |cs|
      invariant 0 <= k <= |cs|
      invariant r == Numbered(d.sequence + 1, cs[..k])
      invariant d' == Drone(d.sequence + k, d.connected)
    {
      var built := BuildRawCommand(d', cs[k]);
      NumberedSnoc(d.sequence + 1, cs, k);
      r := r + [built.frame];
      d' := built.drone;
      k := k + 1;
    }
    assert cs[..k] == cs;
    datagrams := [Concat(r)];
  }

  /** Numbering one more command appends its frame under the next number. */
  lemma NumberedSnoc(start: nat, cs: seq<Command>, k: nat)
    requires k < |cs|
    ensures Numbered(start, cs[..k + 1]) == Numbered(start, cs[..k]) + [Frame(start + k, cs[k])]
  {
    assert cs[..k + 1] == cs[..k] + [cs[k]];
    NumberedAppend(start, cs[..k], [cs[k]]);
    assert Numbered(start + k, [cs[k]]) == [Frame(start + k, cs[k])];
  }
}

=== FILE: params.dfy ===
/** Parameters of an AT command and how `build_raw_command` renders each:
    a float becomes the decimal text of `float2int` of it, anything else is
    passed through `str()`. Python's duck-typed parameters become a tagged
    variant with one rendering rule per tag. */
module Params {
  import opened Results
  import opened Decimal
  import opened WireNumeric

  datatype Param =
    | PInt(i: int)          // a Python int: `str(i)`
    | PFloat(bits: Bits32)  // a Python float, as its binary32 pattern
    | PStr(s: string)       // a Python str: `str(s)` is `s` itself

  /** The text of one parameter in the frame: a number as its decimal
      text, a float as the decimal text of `float2int` of its pattern, a
      string verbatim. A number never holds a frame separator. */
  function EncodeParam(p: Param): (s: string)
    ensures !p.PStr? ==> ',' !in s && '\r' !in s && '=' !in s
    ensures p.PStr? ==> s == p.s
  {
    match p
    case PInt(i) =>
      NoSeparatorsInNumber(i);
      IntToString(i)
    case PFloat(bits) =>
      NoSeparatorsInNumber(Float2Int(bits));
      IntToString(Float2Int(bits))
    case PStr(s) => s
  }

  /** A number's text reads back as the value sent; a float's reads back as
      the signed integer of its pattern, and `int2float` of that restores
      the pattern. */
  lemma ParamReadsBack(p: Param)
    ensures p.PInt? ==> ParseInt(EncodeParam(p)) == Some(p.i)
    ensures p.PFloat? ==> ParseInt(EncodeParam(p)).Some?
                          && Int2Float(ParseInt(EncodeParam(p)).value) == Some(p.bits)
  {
    match p
    case PInt(i) =>
      IntRoundTrip(i);
    case PFloat(bits) =>
      IntRoundTrip(Float2Int(bits));
      Int2FloatOfFloat2Int(bits);
    case PStr(_) =>
  }

  /** A rendered integer holds none of the frame's separator characters. */
  lemma NoSeparatorsInNumber(n: int)
    ensures ',' !in IntToString(n) && '\r' !in IntToString(n) && '=' !in IntToString(n)
  {
    var s := IntToString(n);
    forall i | 0 <= i < |s|
      ensures s[i] != ',' && s[i] != '\r' && s[i] != '='
    {
      if n < 0 && i > 0 {
        assert s[1..][i - 1] == s[i];
      }
    }
  }

  /** The texts of a parameter list, one per parameter and in order. */
  function EncodeAll(ps: seq<Param>): (fields: seq<string>)
    ensures |fields| == |ps|
    ensures forall k :: 0 <= k < |ps| ==> fields[k] == EncodeParam(ps[k])
    decreases |ps|
  {
    if |ps| == 0 then [] else [EncodeParam(ps[0])] + EncodeAll(ps[1..])
  }

  /** The `for param in params` loop of `build_raw_command`, appending one
      rendered parameter to `params2` per step. */
  method EncodeParamList(ps: seq<Param>) returns (params2: seq<string>)
    ensures params2 == EncodeAll(ps)
  {
    params2 := [];
    var k := 0;
    while k < |ps|
      invariant 0 <= k <= |ps|
      invariant |params2| == k
      invariant forall j :: 0 <= j < k ==> params2[j] == EncodeParam(ps[j])
    {
      params2 := params2 + [EncodeParam(ps[k])];
      k := k + 1;
    }
  }

  /** A float 0.0 is sent as `0`, exactly like the integer 0. */
  lemma PositiveZeroRendersAsZero()
    ensures EncodeParam(PFloat(0)) == "0" == EncodeParam(PInt(0))
  {
  }

  /** Rendering the floats 0.5 and -0.5 gives the decimal integers of their
      patterns 0x3F000000 and 0xBF000000, not their decimal values. */
  lemma HalfRendersAsBitPattern()
    ensures EncodeParam(PFloat(0x3F00_0000)) == "1056964608"
    ensures EncodeParam(PFloat(0xBF00_0000)) == "-1090519040"
  {
    assert Float2Int(0x3F00_0000) == 1056964608;
    assert Float2Int(0xBF00_0000) == -1090519040;
    DigitsOfHalf();
  }

  lemma DigitsOfHalf()
    ensures IntToString(1056964608) == "1056964608"
    ensures IntToString(-1090519040) == "-1090519040"
  {
    NatToStringSnoc(10); NatToStringSnoc(105); NatToStringSnoc(1056);
    assert NatToString(1056) == "1056";
    NatToStringSnoc(10569); NatToStringSnoc(105696); NatToStringSnoc(1056964);
    assert NatToString(1056964) == "1056964";
    NatToStringSnoc(10569646); NatToStringSnoc(105696460); NatToStringSnoc(1056964608);
    NatToStringSnoc(10); NatToStringSnoc(109); NatToStringSnoc(1090);
    assert NatToString(1090) == "1090";
    NatToStringSnoc(10905); NatToStringSnoc(109051); NatToStringSnoc(1090519);
    assert NatToString(1090519) == "1090519";
    NatToStringSnoc(10905190); NatToStringSnoc(109051904); NatToStringSnoc(1090519040);
    assert NatToString(1090519040) == "1090519040";
  }
}

=== FILE: results.dfy ===
/** Option and Result values: the model's stand-ins for Python's `None`
    and for exceptions raised out of an operation. */
module Results {

  datatype Option<+T> = None | Some(value: T)

  datatype Result<+R, +E> = Success(value: R) | Failure(error: E)
}

=== FILE: session.dfy ===
/** A caller's script against one `Drone`: a list of dispatcher calls made
    in order, stopping at the first exception. The table `Commands` lists,
    per action, the AT commands it encodes; the theorems connect every
    action, and every script, to that table and to the sequence counter. */
module Session {
  import opened Results
  import opened Text
  import opened WireNumeric
  import opened Params
  import opened DroneState
  import opened Encoder
  import D = Dispatcher

  datatype Action =
    | Takeoff
    | Land
    | Emergency
    | Recover
    | Hover
    | Move(roll: Bits32, pitch: Bits32, gaz: Bits32, yaw: Bits32)
    | FlatTrims
    | SelectVideoChannel(mode: Param)
    | EnableAutonomousFlight
    | DisableAutonomousFlight
    | AnimateLeds(animation: Param, frequency: Bits32, duration: Param)
    | Animate(animation: Param, duration: Param)
    | ResetCommunicationsWatchdog
    | ActivateDetailedNavdata
    | SetConfig(name: string, value: bool)
    | GetConfig

  /** Whether `move` treats its inputs as "no movement". */
  predicate AllZero(roll: Bits32, pitch: Bits32, gaz: Bits32, yaw: Bits32) {
    IsZeroFloat(roll) && IsZeroFloat(pitch) && IsZeroFloat(gaz) && IsZeroFloat(yaw)
  }

  /** The command table: what each action encodes, in order. */
  function Commands(a: Action): seq<Command> {
    match a
    case Takeoff => [Command("REF", [PStr("512")])]
    case Land => [Command("REF", [PStr("0")])]
    case Emergency => [Command("REF", [PStr("0")]), Command("REF", [PStr("256")]), Command("REF", [PStr("0")])]
    case Recover => [Command("REF", [PStr("0")])]
    case Hover => [Command("COMWDG", []), Command("PCMD", [PInt(0), PInt(0), PInt(0), PInt(0), PInt(0)])]
    case Move(r, p, g, y) =>
      if AllZero(r, p, g, y) then
        [Command("COMWDG", []), Command("PCMD", [PInt(0), PInt(0), PInt(0), PInt(0), PInt(0)])]
      else
        [Command("COMWDG", []), Command("PCMD", [PInt(1), PFloat(r), PFloat(p), PFloat(g), PFloat(y)])]
    case FlatTrims => [Command("FTRIM", [])]
    case SelectVideoChannel(m) => [Command("ZAP", [m])]
    case EnableAutonomousFlight => [Command("AFLIGHT", [PInt(1)])]
    case DisableAutonomousFlight => [Command("AFLIGHT", [PInt(0)])]
    case AnimateLeds(an, f, du) => [Command("LED", [an, PFloat(f), du])]
    case Animate(an, du) => [Command("ANIM", [an, du])]
    case ResetCommunicationsWatchdog => [Command("COMWDG", [])]
    case ActivateDetailedNavdata => [D.ConfigCommand("general:navdata_demo", true)]
    case SetConfig(n, v) => [D.ConfigCommand(n, v)]
    case GetConfig => [Command("CTRL", [PInt(5)]), Command("CTRL", [PInt(4)])]
  }

  /** How an action hands its frames to the socket: `send` writes each
      frame as a datagram of its own, `send_many` joins all of them into
      one datagram. */
  datatype Sender = BySend | BySendMany

  /** The sender column of the table: only `emergency`, `hover` and `move`
      go through `send_many`. */
  function SenderOf(a: Action): Sender {
    if a.Emergency? || a.Hover? || a.Move? then BySendMany else BySend
  }

  /** The datagrams the frames of `cs`, numbered from `start`, make when
      handed over by `sender`. */
  function Datagrams(start: nat, cs: seq<Command>, sender: Sender): seq<string> {
    match sender
    case BySend => Numbered(start, cs)
    case BySendMany => [Concat(Numbered(start, cs))]
  }

  /** However the frames are grouped, the datagrams spell, end to end, the
      numbered frames. */
  lemma DatagramsSpell(start: nat, cs: seq<Command>, sender: Sender)
    ensures Concat(Datagrams(start, cs, sender)) == Concat(Numbered(start, cs))
  {
    if sender.BySendMany? {
      ConcatOne(Concat(Numbered(start, cs)));
    }
  }

  /** How many sequence numbers an action uses when the drone is not
      connected: all of its commands are built before the one `raw_send`,
      except `get_config`, whose first send raises before the second frame
      is built. */
  function ConsumedDisconnected(a: Action): nat {
    if a.GetConfig? then 1 else |Commands(a)|
  }

  /** Calls the dispatcher function of an action. */
  function Perform(d: Drone, a: Action): Step {
    match a
    case Takeoff => D.Takeoff(d)
    case Land => D.Land(d)
    case Emergency => D.Emergency(d)
    case Recover => D.Recover(d)
    case Hover => D.Hover(d)
    case Move(r, p, g, y) => D.Move(d, r, p, g, y)
    case FlatTrims => D.FlatTrims(d)
    case SelectVideoChannel(m) => D.SelectVideoChannel(d, m)
    case EnableAutonomousFlight => D.EnableAutonomousFlight(d)
    case DisableAutonomousFlight => D.DisableAutonomousFlight(d)
    case AnimateLeds(an, f, du) => D.AnimateLeds(d, an, f, du)
    case Animate(an, du) => D.Animate(d, an, du)
    case ResetCommunicationsWatchdog => D.ResetCommunicationsWatchdog(d)
    case ActivateDetailedNavdata => D.ActivateDetailedNavdata(d)
    case SetConfig(n, v) => D.SetConfig(d, n, v)
    case GetConfig => D.GetConfig(d)
  }

  /** What the table promises of a step `s` taken from `d` that encodes
      `cs`, handed over by `sender`, `k` of which are built before a
      disconnected send raises. */
  predicate Agrees(d: Drone, cs: seq<Command>, sender: Sender, k: nat, s: Step) {
    && (d.connected ==>
          && s.result == Success(Datagrams(d.sequence + 1, cs, sender))
          && s.drone == Drone(d.sequence + |cs|, true))
    && (!d.connected ==>
          && s.result == Failure(NotConnected)
          && s.drone == Drone(d.sequence + k, false))
  }

  lemma ConcatOne(x: string)
    ensures Concat([x]) == x
  {
    assert [x][1..] == [];
  }

  lemma ViaSend(d: Drone, cs: seq<Command>)
    requires |cs| == 1
    ensures Agrees(d, cs, BySend, 1, D.Send(d, cs[0]))
  {
    var n := d.sequence + 1;
    NumberedFrames(n, cs);
    assert Numbered(n, cs) == [Frame(n, cs[0])];
  }

  lemma ViaSendMany(d: Drone, cs: seq<Command>)
    ensures Agrees(d, cs, BySendMany, |cs|, D.SendMany(d, cs))
  {
  }

  lemma GetConfigAgrees(d: Drone)
    ensures Agrees(d, Commands(GetConfig), BySend, 1, D.GetConfig(d))
  {
    var n := d.sequence + 1;
    assert Commands(GetConfig) == [D.AckCtrl, D.CfgCtrl];
    NumberedFrames(n, [D.AckCtrl, D.CfgCtrl]);
    assert Numbered(n, [D.AckCtrl, D.CfgCtrl]) == [Frame(n, D.AckCtrl), Frame(n + 1, D.CfgCtrl)];
  }

  lemma FlightAgrees(d: Drone, a: Action)
    requires a.Takeoff? || a.Land? || a.Emergency? || a.Recover? || a.Hover? || a.Move?
    ensures Agrees(d, Commands(a), SenderOf(a), ConsumedDisconnected(a), Perform(d, a))
  {
    var cs := Commands(a);
    match a
    case Takeoff => ViaSend(d, cs);
    case Land => ViaSend(d, cs);
    case Emergency => ViaSendMany(d, cs);
    case Recover => ViaSend(d, cs);
    case Hover => ViaSendMany(d, cs);
    case Move(r, p, g, y) => ViaSendMany(d, cs);
  }

  lemma SettingAgrees(d: Drone, a: Action)
    requires a.FlatTrims? || a.SelectVideoChannel? || a.EnableAutonomousFlight?
             || a.DisableAutonomousFlight? || a.AnimateLeds? || a.Animate?
    ensures Agrees(d, Commands(a), SenderOf(a), ConsumedDisconnected(a), Perform(d, a))
  {
    var cs := Commands(a);
    match a
    case FlatTrims => ViaSend(d, cs);
    case SelectVideoChannel(m) => ViaSend(d, cs);
    case EnableAutonomousFlight => ViaSend(d, cs);
    case DisableAutonomousFlight => ViaSend(d, cs);
    case AnimateLeds(an, f, du) => ViaSend(d, cs);
    case Animate(an, du) => ViaSend(d, cs);
  }

  lemma ConfigAgrees(d: Drone, a: Action)
    requires a.ResetCommunicationsWatchdog? || a.ActivateDetailedNavdata? || a.SetConfig? || a.GetConfig?
    ensures Agrees(d, Commands(a), SenderOf(a), ConsumedDisconnected(a), Perform(d, a))
  {
    var cs := Commands(a);
    match a
    case ResetCommunicationsWatchdog => ViaSend(d, cs);
    case ActivateDetailedNavdata => ViaSend(d, cs);
    case SetConfig(n, v) => ViaSend(d, cs);
    case GetConfig => GetConfigAgrees(d);
  }

  /** Every action agrees with the table: connected, it writes the table's
      commands numbered from the next counter value, one datagram per frame
      when it uses `send` and one datagram of all of them when it uses
      `send_many`, and it uses one number per command; disconnected, it raises "Not connected yet!"
      having used the numbers of the frames it built. The connection is
      never changed. */
  lemma PerformMatchesTable(d: Drone, a: Action)
    ensures Agrees(d, Commands(a), SenderOf(a), ConsumedDisconnected(a), Perform(d, a))
  {
    if a.Takeoff? || a.Land? || a.Emergency? || a.Recover? || a.Hover? || a.Move? {
      FlightAgrees(d, a);
    } else if a.ResetCommunicationsWatchdog? || a.ActivateDetailedNavdata? || a.SetConfig? || a.GetConfig? {
      ConfigAgrees(d, a);
    } else {
      SettingAgrees(d, a);
    }
  }

  /** The commands of a whole script, in call order. */
  function AllCommands(actions: seq<Action>): seq<Command>
    decreases |actions|
  {
    if |actions| == 0 then [] else Commands(actions[0]) + AllCommands(actions[1..])
  }

  /** Runs the calls in order; the first exception ends the script. */
  function Run(d: Drone, actions: seq<Action>): Step
    decreases |actions|
  {
    if |actions| == 0 then Step(d, Success([]))
    else
      var first := Perform(d, actions[0]);
      if first.result.Failure? then first
      else
        var rest := Run(first.drone, actions[1..]);
        Step(rest.drone, D.AndThen(first.result, rest.result))
  }

  /** A step taken from a connected `d` that writes, end to end, the frames
      of `cs` numbered from the next counter value, using one number each. */
  predicate WritesNumbered(d: Drone, cs: seq<Command>, s: Step) {
    && s.result.Success?
    && Concat(s.result.value) == Concat(Numbered(d.sequence + 1, cs))
    && s.drone == Drone(d.sequence + |cs|, true)
  }

  /** Two such steps in a row write the frames of both command lists,
      numbered straight through. */
  lemma ChainConnected(d: Drone, cs: seq<Command>, first: Step, later: seq<Command>, rest: Step)
    requires WritesNumbered(d, cs, first)
    requires WritesNumbered(first.drone, later, rest)
    ensures WritesNumbered(d, cs + later, Step(rest.drone, D.AndThen(first.result, rest.result)))
  {
    var xs, ys := first.result.value, rest.result.value;
    var n := d.sequence + 1;
    var a, b := Numbered(n, cs), Numbered(n + |cs|, later);
    assert D.AndThen(first.result, rest.result) == Success(xs + ys);
    ConcatAppend(xs, ys);
    NumberedAppend(n, cs, later);
    ConcatAppend(a, b);
  }

  /** On a connected drone a script never raises, and the datagrams it
      writes are, end to end, the frames of all its commands numbered
      consecutively from the next counter value: one number per command,
      in call order, none skipped or repeated. */
  lemma {:induction false} RunConnected(d: Drone, actions: seq<Action>)
    requires d.connected
    ensures WritesNumbered(d, AllCommands(actions), Run(d, actions))
    decreases |actions|
  {
    if |actions| == 0 {
      assert Numbered(d.sequence + 1, []) == [];
    } else {
      var a := actions[0];
      PerformMatchesTable(d, a);
      var first := Perform(d, a);
      DatagramsSpell(d.sequence + 1, Commands(a), SenderOf(a));
      assert WritesNumbered(d, Commands(a), first);
      RunConnected(first.drone, actions[1..]);
      ChainConnected(d, Commands(a), first, AllCommands(actions[1..]), Run(first.drone, actions[1..]));
    }
  }

  /** On a disconnected drone the first call raises "Not connected yet!",
      after using the numbers of the frames it built. */
  lemma RunDisconnected(d: Drone, actions: seq<Action>)
    requires !d.connected && |actions| > 0
    ensures Run(d, actions) == Step(Drone(d.sequence + ConsumedDisconnected(actions[0]), false), Failure(NotConnected))
  {
    PerformMatchesTable(d, actions[0]);
  }

  /** On a freshly constructed and connected drone, any script succeeds
      and the `i`-th command of it goes out under sequence number `i + 1`:
      the numbers on the wire are exactly 1..N. When no command carries a
      stray `=` or `,`, each frame also reads back as its own command. */
  lemma FreshSessionNumbersFromOne(actions: seq<Action>)
    ensures var cs := AllCommands(actions);
      var s := Run(Connect(Fresh), actions);
      && s.result.Success?
      && Concat(s.result.value) == Concat(Numbered(1, cs))
      && s.drone.sequence == |cs|
      && (forall i :: 0 <= i < |cs| ==> Numbered(1, cs)[i] == Frame(i + 1, cs[i]))
    ensures var cs := AllCommands(actions);
      (forall i :: 0 <= i < |cs| ==> Parsable(cs[i])) ==>
        forall i :: 0 <= i < |cs| ==>
          ParseFrame(Numbered(1, cs)[i]) == Some(Parsed(cs[i].code, i + 1, EncodeAll(cs[i].params)))
  {
    var d := Connect(Fresh);
    var cs := AllCommands(actions);
    assert d.sequence + 1 == 1;
    RunConnected(d, actions);
    NumberedFrames(1, cs);
    if forall i :: 0 <= i < |cs| ==> Parsable(cs[i]) {
      NumberedRoundTrip(1, cs);
    }
  }
}

=== FILE: text.dfy ===
/** The string plumbing the frame builder relies on: Python's
    `sep.join(list)` and `''.join(list)`, and the matching readers used to
    show that a frame can be taken apart again. */
module Text {
  import opened Results

  /** Python's `sep.join(xs)` for a one-character separator. */
  function Join(xs: seq<string>, sep: char): string
    decreases |xs|
  {
    if |xs| == 0 then ""
    else if |xs| == 1 then xs[0]
    else xs[0] + [sep] + Join(xs[1..], sep)
  }

  /** Python's `''.join(xs)`. */
  function Concat(xs: seq<string>): string
    decreases |xs|
  {
    if |xs| == 0 then "" else xs[0] + Concat(xs[1..])
  }

  /** Python's `s.split(sep)`: the pieces between separators, at least one. */
  function Split(s: string, sep: char): (parts: seq<string>)
    ensures |parts| >= 1
    decreases |s|
  {
    if |s| == 0 then [""]
    else
      var rest := Split(s[1..], sep);
      if s[0] == sep then [""] + rest
      else [[s[0]] + rest[0]] + rest[1..]
  }

  /** The position of the first `c` in `s`, if any. */
  function IndexOf(s: string, c: char): (r: Option<nat>)
    ensures r.Some? ==> r.value < |s| && s[r.value] == c && c !in s[..r.value]
    ensures r.None? ==> c !in s
    decreases |s|
  {
    if |s| == 0 then None
    else if s[0] == c then Some(0)
    else
      match IndexOf(s[1..], c)
      case None => None
      case Some(k) => Some(k + 1)
  }

  /** Splitting a piece that holds no separator leaves it whole. */
  lemma {:induction false} SplitNoSep(a: string, sep: char)
    requires sep !in a
    ensures Split(a, sep) == [a]
    decreases |a|
  {
    if |a| > 0 {
      SplitNoSep(a[1..], sep);
      assert [a[0]] + a[1..] == a;
    }
  }

  /** Splitting stops at the first separator. */
  lemma {:induction false} SplitAtSep(a: string, sep: char, b: string)
    requires sep !in a
    ensures Split(a + [sep] + b, sep) == [a] + Split(b, sep)
    decreases |a|
  {
    var s := a + [sep] + b;
    if |a| == 0 {
      assert s[1..] == b;
    } else {
      assert s[1..] == a[1..] + [sep] + b;
      SplitAtSep(a[1..], sep, b);
      assert [a[0]] + a[1..] == a;
    }
  }

  /** `Split` undoes `Join` when no piece holds the separator. */
  lemma {:induction false} SplitJoin(xs: seq<string>, sep: char)
    requires |xs| >= 1
    requires forall i :: 0 <= i < |xs| ==> sep !in xs[i]
    ensures Split(Join(xs, sep), sep) == xs
    decreases |xs|
  {
    if |xs| == 1 {
      SplitNoSep(xs[0], sep);
    } else {
      SplitJoin(xs[1..], sep);
      SplitAtSep(xs[0], sep, Join(xs[1..], sep));
      assert [xs[0]] + xs[1..] == xs;
    }
  }

  /** Joining a head onto a non-empty tail puts exactly one separator between. */
  lemma JoinCons(x: string, xs: seq<string>, sep: char)
    requires |xs| >= 1
    ensures Join([x] + xs, sep) == x + [sep] + Join(xs, sep)
  {
    assert ([x] + xs)[1..] == xs;
  }

  /** Concatenation of two lists of pieces is the concatenation of their texts. */
  lemma {:induction false} ConcatAppend(xs: seq<string>, ys: seq<string>)
    ensures Concat(xs + ys) == Concat(xs) + Concat(ys)
    decreases |xs|
  {
    if |xs| == 0 {
      assert xs + ys == ys;
    } else {
      assert (xs + ys)[1..] == xs[1..] + ys;
      ConcatAppend(xs[1..], ys);
    }
  }

  /** The first separator sits right after a prefix that holds none. */
  lemma {:induction false} IndexOfAfter(a: string, c: char, b: string)
    requires c !in a
    ensures IndexOf(a + [c] + b, c) == Some(|a|)
    decreases |a|
  {
    var s := a + [c] + b;
    if |a| > 0 {
      assert s[1..] == a[1..] + [c] + b;
      IndexOfAfter(a[1..], c, b);
    }
  }
}

=== FILE: wire_numeric.dfy ===
/** `float2int` / `int2float`: a 32-bit IEEE-754 binary32 value is carried
    on the wire as the signed 32-bit integer with the same bit pattern.
    A float is represented here by its bit pattern, read as an unsigned
    32-bit number, so both conversions are reinterpretations of one word. */
module WireNumeric {
  import opened Results

  const TwoTo31: int := 0x8000_0000
  const TwoTo32: int := 0x1_0000_0000

  /** A 32-bit pattern; bit 31 is the IEEE-754 sign bit. */
  newtype Bits32 = x: int | 0 <= x < 0x1_0000_0000

  /** The signed 32-bit integers: what `struct.pack("=i", ...)` accepts. */
  predicate IsInt32(i: int) {
    -TwoTo31 <= i < TwoTo31
  }

  /** `float2int`: the two's-complement reading of the pattern. */
  function Float2Int(bits: Bits32): (i: int)
    ensures IsInt32(i)
    ensures i < 0 <==> bits as int >= TwoTo31
    ensures (i - bits as int) % TwoTo32 == 0
  {
    if bits as int >= TwoTo31 then bits as int - TwoTo32 else bits as int
  }

  /** `int2float`: the pattern whose two's-complement reading is `i`;
      outside the 32-bit range `struct.pack` raises, modelled as `None`. */
  function Int2Float(i: int): (r: Option<Bits32>)
    ensures r.Some? <==> IsInt32(i)
    ensures r.Some? ==> (i - r.value as int) % TwoTo32 == 0
  {
    if IsInt32(i) then Some((if i < 0 then i + TwoTo32 else i) as Bits32) else None
  }

  /** Going to the wire integer and back restores every pattern exactly. */
  lemma Int2FloatOfFloat2Int(bits: Bits32)
    ensures Int2Float(Float2Int(bits)) == Some(bits)
  {
  }

  /** Going from a 32-bit integer to a pattern and back restores it. */
  lemma Float2IntOfInt2Float(i: int)
    requires IsInt32(i)
    ensures Int2Float(i).Some? && Float2Int(Int2Float(i).value) == i
  {
  }

  /** `float2int` never maps two patterns to one integer. */
  lemma Float2IntInjective(a: Bits32, b: Bits32)
    ensures Float2Int(a) == Float2Int(b) ==> a == b
  {
    Int2FloatOfFloat2Int(a);
    Int2FloatOfFloat2Int(b);
  }

  /** Python truthiness of a float: only +0.0 and -0.0 are false, so the
      sign bit is ignored and the low 31 bits (`bits & 0x7FFFFFFF`) must
      all be clear. */
  predicate IsZeroFloat(bits: Bits32) {
    bits as int % TwoTo31 == 0
  }

  /** The zero test holds of exactly the two zero patterns. */
  lemma IsZeroFloatExactlyZeros(bits: Bits32)
    ensures IsZeroFloat(bits) <==> bits == 0 || bits == 0x8000_0000
  {
  }

  /** The documented example: -0.8f has pattern 0xBF4CCCCD, sent as
      -1085485875, and `int2float` brings that back to the same pattern. */
  lemma MinusPointEightExample()
    ensures Float2Int(0xBF4C_CCCD) == -1085485875
    ensures Int2Float(-1085485875) == Some(0xBF4C_CCCD)
  {
  }
}
